=== FILE: README.md ===
# Reservations ingestion — a Dafny model

This project models the two jobs that fill the `reservations` table of the
Dryft data-engineering repository with material-requirement line items.
Each line item is identified by its business key (`reserv_nr`, `pos`).

- **Bulk loader** (`load_initial_data`). It reads the base extract,
  converts every column, and INSERTs every row in file order with no
  existence check.
- **Daily reconciler** (`process_daily_updates`). It reads the daily
  extract and converts it with slightly different rules. For each row it
  UPDATEs the nine non-key columns of every stored row with the same key,
  then INSERTs the row only `WHERE NOT EXISTS` a row with that key.

Both jobs run in one transaction. They commit at the end, or roll back
and re-raise on the first error.

The table is a sequence of `Record(key, values)` in `id` order: the serial
`id` (create_table.py:22) is kept by an UPDATE and grows with every INSERT.
Nothing in the schema makes the key unique, so duplicates are
representable and counted with `CountKey`.

Each job is a pure function from the old table and the file's rows to a
`Run(table, error)`:
- `error == None` means the run committed;
- otherwise `table` is the rolled-back old table and `error` is what the
  job re-raises.

pandas converts one column over the whole file before the next, and all
conversions happen before any SQL runs. The model keeps that order. A
conversion error names the first failing column in conversion order
(quantity, `bed_termin`, `angel_am`, `uhrzeit`) and the first failing row
in that column. Only when every cell converts can a statement error
occur, at the first rejected row.

Behaviour that lives in libraries or in the database is a parameter
(`Ingest.Foreign`):
- whether `astype(float)` accepts a cleaned quantity;
- the daily job's `dateutil` parse with `dayfirst=True`;
- the `%H:%M:%S` time parse;
- whether the database executes a row's statements.

Modules, one file each:
- `Wrappers`: `Option`, `Result`.
- `Reservations`: keys, records, tables, key presence and counting.
- `Normalize`: the two quantity cleanings and the cleared flag. Python's
  `str.replace` with one-character arguments and `str.strip()` with its
  `isspace` character set are modelled exactly.
- `QuantityFormats`: what the cleanings make of grouped-thousands,
  decimal-comma and dot-decimal numbers.
- `DayFirstDates`: the loader's strict `%d.%m.%y` reading, including the
  two-digit-year pivot and the calendar check.
- `Ingest`: the raw row, the column-wise conversion and its first error,
  and commit/rollback.
- `Upsert`: UPDATE, the conditional INSERT, their fold over a file, and
  the fold's properties.
- `Reconciler`: the daily job.
- `BulkLoader`: the initial job.

## Model

| member | source | states |
|---|---|---|
| Normalize.DailyQuantity | process_daily_updates.py:41 | The daily cleaning leaves no comma. It has exactly as many dots as the input had commas, no surrounding whitespace, and the same count of every other non-blank character. |
| Normalize.RemoveDotsCounts | process_daily_updates.py:41 | `.replace('.', '')` leaves no dot, shortens the text by the number of dots, and keeps the count of every other character. |
| Normalize.RemoveDotsAppend | process_daily_updates.py:41 | Dot removal works piecewise over concatenation. |
| Normalize.CommaToDot | load_initial_data.py:38 | `.replace(',', '.')` keeps the length and turns exactly the commas into dots. |
| Normalize.CommaToDotCounts | load_initial_data.py:38 | After the comma replacement no comma is left. The dot count grows by the comma count, and other characters keep their counts. |
| Normalize.Strip | load_initial_data.py:38 | `strip()` returns a slice with no whitespace at either end. Only whitespace is cut from the front and from the back. |
| Normalize.StripExactly | process_daily_updates.py:41 | Whitespace on both sides of a trimmed text is cut exactly, and nothing else is. |
| Normalize.StripCounts | load_initial_data.py:38 | `strip()` keeps the count of every non-whitespace character. |
| Normalize.BaseQuantity | load_initial_data.py:38 | The loader's cleaning leaves no comma and has as many dots as the input had dots and commas together. It is trimmed and keeps every other non-blank character's count. |
| Normalize.DailyIsBaseWithoutDots | process_daily_updates.py:41 | A definitional fact that follows from the two cleanings as written: the daily cleaning is the loader's cleaning applied after dot removal. |
| QuantityFormats.DailyQuantityGrouped | process_daily_updates.py:41 | For any digit groups, `a.b,c` is cleaned to `ab.c` by the daily job, so "1.234,56" becomes "1234.56". |
| QuantityFormats.DailyQuantityDecimal | process_daily_updates.py:41 | For any digit groups, `a,c` is cleaned to `a.c` by the daily job. |
| QuantityFormats.DailyQuantityDotDecimal | process_daily_updates.py:41 | The daily job takes every dot for a grouping dot, so `a.c` is cleaned to `ac` ("12.5" becomes "125"). |
| QuantityFormats.BaseQuantityDecimal | load_initial_data.py:38 | For any digit groups, `a,c` is cleaned to `a.c` by the loader. |
| QuantityFormats.BaseQuantityGrouped | load_initial_data.py:38 | The loader keeps a grouping dot, so `a.b,c` becomes `a.b.c` (two points). |
| QuantityFormats.DailyQuantitySample | process_daily_updates.py:41 | "1.234,56" is cleaned to "1234.56" by the daily job. |
| QuantityFormats.BaseQuantitySample | load_initial_data.py:38 | "1234,56" is cleaned to "1234.56" by the loader. |
| Normalize.Cleared | process_daily_updates.py:44 | The cleared flag is true exactly when the cell is the text "X". The loader's rule at load_initial_data.py:40 is the same. |
| Normalize.ClearedExamples | load_initial_data.py:40 | "X" is cleared. A missing cell, "", "x", " X" and "XX" are not. |
| DayFirstDates.ParseDayFirst | load_initial_data.py:43-44 | A successful `%d.%m.%y` read gives a calendar-valid date from three dot-separated fields. The day comes first and is 1-31 in one or two digits. The month is 1-12 in one or two digits. The year is exactly two digits, 00-68 meaning 20xx and 69-99 meaning 19xx. Conversely, every text of that shape whose day exists in that month and year is read, so "5.3.24" is accepted as well as "05.03.24". |
| DayFirstDates.ParseFormatRoundTrip | load_initial_data.py:43-44 | Every date the format can denote is read back from its `dd.mm.yy` spelling. |
| DayFirstDates.DayComesFirst | load_initial_data.py:43 | "05.03.24" is 5 March 2024, not 3 May. |
| DayFirstDates.YearField | load_initial_data.py:43 | A year field is read exactly when it is two ASCII digits. Its value ends in those two digits and lies in 1969..2068, so 00-68 mean 2000-2068 and 69-99 mean 1969-1999. |
| DayFirstDates.ParseFieldsRoundTrip | load_initial_data.py:43-44 | Any day and month spellings the format reads, padded or not, followed by the two-digit year, are read back as the date they spell. |
| DayFirstDates.ParseUnpaddedRoundTrip | load_initial_data.py:43-44 | Every date the format can denote is also read back from its unpadded `d.m.yy` spelling. |
| DayFirstDates.UnpaddedDayFirst | load_initial_data.py:43 | "5.3.24" is 5 March 2024: one-digit day and month fields are accepted. |
| Ingest.ScanFrom | process_daily_updates.py:41-51 | Columns are scanned in conversion order. The result is None exactly when every later column converts in full. Otherwise it names the first failing column's first bad row, and every column before it converts. |
| Ingest.ParseRows | process_daily_updates.py:41-51 | Conversion succeeds exactly when every cell of every row converts, and it then yields the converted records. Otherwise it fails with the first bad cell in conversion order. |
| Ingest.ParseRow | process_daily_updates.py:63-68 | A converted row is stored with the key (`reserv_nr`, `pos`), the cleaned quantity, the parsed `bed_termin` and `angel_am` dates, the parsed `uhrzeit` time, the cleared flag from `gel`, and `bme`, `material`, `kda_pos` and `auftrag` as read. The loader writes the same columns through `tuple(row)` at load_initial_data.py:58. |
| Ingest.FirstFailureIsFirst | load_initial_data.py:38-47 | When some cell does not convert, the reported error is an unconvertible cell. Every cell above it in its column converts, and so does every column converted before it. |
| Ingest.RowsByColumns | load_initial_data.py:38-47 | Every row converts exactly when every column converts in full. |
| Upsert.Update | process_daily_updates.py:56-68 | The UPDATE keeps length and keys. Every row with the key gets the new values, and every other row is unchanged. |
| Upsert.Exists | process_daily_updates.py:77-79 | The `NOT EXISTS` probe finds a row exactly when the key is stored. |
| Upsert.InsertIfAbsent | process_daily_updates.py:70-85 | The conditional INSERT adds one row exactly when the key was not stored, and then appends the file row after the untouched old rows. Afterwards the key is stored. |
| Upsert.ApplyRow | process_daily_updates.py:54-85 | One file row grows the table by one exactly when its key was absent, the new row then being the file row. No key changes, and rows with other keys are untouched. Afterwards the key is stored, and every row with it carries the file row's values. |
| Upsert.ApplyRowKeepsUnique | process_daily_updates.py:70-85 | One file row never creates a duplicate key in a table without duplicates. |
| Upsert.LastIndex | process_daily_updates.py:54 | Finds the last file row with a key. It is absent exactly when the key is not in the file. |
| Upsert.UpsertsKeepRows | process_daily_updates.py:54-85 | A whole file deletes no row, keeps every stored row's key and position, and leaves rows whose key is not in the file untouched. |
| Upsert.UpsertsAppendNewKeys | process_daily_updates.py:70-85 | Appended rows carry keys that are in the file and were not stored, each at most once. |
| Upsert.UpsertsCoverKeys | process_daily_updates.py:54-85 | After a file every key of the file is stored. |
| Upsert.UpsertsRowWins | process_daily_updates.py:54-85 | A row whose key is in the file carries the values of the last file row with that key. |
| Upsert.UpsertsLastWriteWins | process_daily_updates.py:54-85 | Last write wins for every row of the table at once. |
| Upsert.UpsertsRowUntouched | process_daily_updates.py:56-61 | A row whose key is not in the file is an old row, unchanged. |
| Upsert.UpsertsKeepUnique | process_daily_updates.py:70-85 | A whole file never creates a duplicate key in a table without duplicates. |
| Upsert.UpsertsOfStoredKeys | process_daily_updates.py:77-79 | When every key of the file is stored, no row is added. |
| Upsert.UpsertsIdempotent | process_daily_updates.py:54-85 | Applying the same file to its own result changes nothing. |
| Upsert.UpsertsAppendedUnique | process_daily_updates.py:70-85 | The appended rows have pairwise distinct keys. |
| Upsert.UpsertsAppendedKeys | process_daily_updates.py:70-85 | A key is among the appended rows exactly when it is in the file and was not stored. |
| Upsert.UpsertsAppendedCount | process_daily_updates.py:70-85 | The appended rows hold one row for each key that is only in the file, and none for any other key. |
| Upsert.UpsertsCountKey | process_daily_updates.py:54-85 | A stored key keeps its row count, duplicates included. A key only in the file is stored once, and any other key stays absent. |
| Upsert.UpsertsOfFreshKeys | process_daily_updates.py:70-85 | A file of distinct, unstored keys is appended as is, in file order. |
| Reconciler.Reconcile | process_daily_updates.py:53-87 | The statement loop succeeds exactly when the database accepts every row, and it then yields the fold of the per-row upserts. Otherwise it fails with the first rejected row. |
| Reconciler.ProcessDailyUpdates | process_daily_updates.py:26-92 | A daily run commits exactly when every cell converts and every row is accepted, and it then stores the fold over the converted file. Otherwise the table is rolled back, and the error is the first bad cell in conversion order or else the first rejected row. |
| Reconciler.RerunIsIdempotent | process_daily_updates.py:26-92 | Re-running a daily file on the table a run left returns the same run, whether the first run committed or rolled back (with both runs parsing dates alike). |
| Reconciler.DailyKeepsUnique | process_daily_updates.py:70-85 | A daily run, committed or not, never introduces duplicate keys into a table without them. |
| Reconciler.DailyLastWriteWins | process_daily_updates.py:54-85 | After a committed daily run every key of the file is stored. Every row with such a key carries the values of the last file row with it. |
| Reconciler.DailyRowsAndCounts | process_daily_updates.py:54-85 | A committed daily run deletes nothing, rewrites no key and leaves rows with other keys alone. A stored key keeps its row count, and a key only in the file is stored once. |
| BulkLoader.InsertAll | load_initial_data.py:50-59 | The INSERT loop succeeds exactly when the database accepts every row, and it then appends all rows after the old ones in file order. Otherwise it fails with the first rejected row. |
| BulkLoader.LoadInitialData | load_initial_data.py:23-64 | A load commits exactly when every cell converts and every row is accepted. It then stores the old table followed by one row per file row, in file order. Otherwise the table is rolled back, and the error is the first bad cell in conversion order or else the first rejected row. |
| BulkLoader.LoadTwiceDoublesKeys | load_initial_data.py:51-58 | Loading a committed file again commits too. Each key's row count becomes its old count plus twice its count in the file. |
| BulkLoader.LoadTwiceDuplicates | load_initial_data.py:51-58 | Loading a non-empty file twice always leaves duplicate keys. |

## Left out

- Reading the CSV (`pd.read_csv`) is not modelled. The model starts from
  the rows after `BME.1` is dropped and the columns are renamed
  positionally. The key and the two integer columns arrive typed, and an
  empty `gel` cell arrives as `None`. A file with another column layout is
  out of scope.
- Missing cells other than `gel` are not modelled. In the source an empty
  quantity passes `astype(float)` as NaN. An empty date cell in the daily
  job fails `parser.parse` (process_daily_updates.py:47-48). An empty cell
  read by `pd.to_datetime` with a format (load_initial_data.py:43-44 and 47,
  process_daily_updates.py:51) becomes NaT without an error, and the run
  only fails when the database rejects the 'NaT' value; in the model that
  is part of `Foreign.accepts`.
- The column types pandas infers are not modelled. In the source a
  quantity column that reads as numbers has no `.str` accessor, so the run
  fails before any cleaning. The model takes every quantity cell as text.
- `astype(float)` is a parameter (`Foreign.isFloat`). The stored quantity
  is the cleaned text, not a floating-point number.
- The daily job's `dateutil` parse is a parameter (`Foreign.parseDate`),
  and so is the `%H:%M:%S` time parse of both jobs (`Foreign.parseTime`).
  `Foreign.parseDate` stands for one clock. dateutil fills missing date
  fields from today and resolves two-digit years within 50 years of the
  current year, so `Reconciler.RerunIsIdempotent` assumes both runs parse
  each date alike.
- Whether the database raises on a row's statements is a parameter
  (`Foreign.accepts`), which depends on the row alone. The UPDATE and the
  INSERT of a daily row are accepted or rejected together. Either way the
  run rolls back, so which of them raised does not change the outcome.
- DayFirstDates.ParseDayFirst: the `%d` form with a leading blank (" 5")
  is not accepted. Fields are read with ASCII digits only, although
  Python's `\d` also matches other Unicode decimal digits. pandas' NaT
  texts ("NaT", "nat", "NAT") convert to NaT without an error and fail
  only at the INSERT. The model treats them as unconvertible cells
  instead, so the reported error differs (a bad date cell rather than the
  rejected row or a later column's error), while the table is still rolled
  back.
- The `str()` conversion of the key in the daily job's WHERE clauses is
  not modelled. Keys compare as the typed `(reserv_nr, pos)` pair.
- The database connection, logging, the `main` functions and their
  `finally: close()` are left out.
- Two reconcilers running at the same time could both pass `NOT EXISTS`
  and insert duplicates. That needs interleaving, which the model does not
  have: each run is one atomic step.
- The schema in `create_table.py` is not modelled. The table it creates names
  the material column `data`, while both jobs write `material`. Against
  that schema the database would reject every row, which the model can
  only express as a `Foreign.accepts` that is always false.
- The `id`, `valid_from` and `valid_to` columns are never written by
  either job, so they are not modelled.

=== FILE: bulk_loader.dfy ===
/**
  The initial job `load_initial_data`: convert the whole file, INSERT every
  row in file order with no existence check inside one transaction, and
  commit; any error rolls the table back and is re-raised.
 */
module BulkLoader {
  import opened Wrappers
  import opened Reservations
  import opened Ingest

  /**
    The statement loop, with the file row number of `recs[0]` at `offset`:
    it stops at the first row the database rejects; otherwise every row is
    appended after the existing ones, in file order.
   */
  function InsertAll(t: Table, recs: seq<Record>, env: Foreign, offset: nat): (r: Result<Table, Failure>)
    ensures r.Success? <==> AllAccepted(env, recs)
    ensures r.Success? ==> r.value == t + recs
    ensures r.Failure? ==>
      r.error.Rejected? && r.error.row >= offset && FirstRejectedAt(env, recs, r.error.row - offset)
    decreases |recs|
  {
    if recs == [] then
      assert t + recs == t;
      Success(t)
    else if !env.accepts(recs[0]) then Failure(Rejected(offset))
    else
      var r := InsertAll(t + [recs[0]], recs[1..], env, offset + 1);
      assert AllAccepted(env, recs) <==> AllAccepted(env, recs[1..]) by {
        forall i | 0 < i < |recs| ensures recs[1..][i - 1] == recs[i] { }
      }
      assert (t + [recs[0]]) + recs[1..] == t + recs;
      r
  }

  /**
    One run of the loader on table `t`. It commits exactly when every cell
    converts and every INSERT succeeds, and then stores the old rows followed
    by one row per file row, in file order. Otherwise the table is rolled
    back to `t` and the error is the first unconvertible cell (in
    conversion order) or, when all convert, the first rejected row.
   */
  function LoadInitialData(t: Table, rows: seq<RawRow>, env: Foreign): (run: Run)
    ensures run.error.None? <==> Succeeds(BulkLoad, env, rows)
    ensures run.error.Some? ==> run.table == t
    ensures run.error.None? ==> run.table == t + ParseAll(BulkLoad, env, rows)
    ensures !AllRowsOk(BulkLoad, env, rows) ==> run.error == FirstFailure(BulkLoad, env, rows)
    ensures AllRowsOk(BulkLoad, env, rows) && run.error.Some? ==>
      run.error.value.Rejected? && FirstRejectedAt(env, ParseAll(BulkLoad, env, rows), run.error.value.row)
  {
    match ParseRows(BulkLoad, env, rows)
    case Failure(e) => Commit(t, Failure(e))
    case Success(recs) => Commit(t, InsertAll(t, recs, env, 0))
  }

  /**
    Loading the same file twice commits twice and stores every key of the
    file twice as often as the file holds it, on top of the old rows.
   */
  lemma LoadTwiceDoublesKeys(t: Table, rows: seq<RawRow>, env: Foreign, k: Key)
    requires Succeeds(BulkLoad, env, rows)
    ensures var twice := LoadInitialData(LoadInitialData(t, rows, env).table, rows, env);
      && twice.error.None?
      && CountKey(twice.table, k) == CountKey(t, k) + 2 * CountKey(ParseAll(BulkLoad, env, rows), k)
  {
    var recs := ParseAll(BulkLoad, env, rows);
    CountKeyAppend(t, recs, k);
    CountKeyAppend(t + recs, recs, k);
  }

  /** A second load of a non-empty file always leaves duplicate keys. */
  lemma LoadTwiceDuplicates(t: Table, rows: seq<RawRow>, env: Foreign)
    requires Succeeds(BulkLoad, env, rows) && rows != []
    ensures !UniqueKeys(LoadInitialData(LoadInitialData(t, rows, env).table, rows, env).table)
  {
    var recs := ParseAll(BulkLoad, env, rows);
    var k := recs[0].key;
    LoadTwiceDoublesKeys(t, rows, env, k);
    var twice := LoadInitialData(LoadInitialData(t, rows, env).table, rows, env).table;
    CountKeyPositive(recs, k);
    if UniqueKeys(twice) {
      CountKeyPositive(twice, k);
      CountKeyUnique(twice, k);
    }
  }
}

=== FILE: day_first_dates.dfy ===
/**
  The bulk loader's date conversion: `to_datetime(..., format='%d.%m.%y')`.
  The text splits at its dots into exactly three fields; the FIRST is the
  day (`%d`: one or two digits, 1 to 31), the SECOND the month (`%m`: one or
  two digits, 1 to 12) and the third a two-digit year (`%y`: 00 to 68 read as
  2000 to 2068, 69 to 99 as 1969 to 1999). The day must exist in that month.
 */
module DayFirstDates {
  import opened Wrappers
  import opened Reservations
  import opened Normalize

  function DigitValue(c: char): nat
    requires IsDigit(c)
  {
    (c as int) - ('0' as int)
  }

  /** Splits at every '.', like Python's `str.split('.')`. */
  function Split(s: string): (fields: seq<string>)
    ensures |fields| >= 1
    ensures forall i :: 0 <= i < |fields| ==> '.' !in fields[i]
    ensures Join(fields) == s
  {
    if s == [] then [[]]
    else
      var rest := Split(s[1..]);
      if s[0] == '.' then
        assert Join([[]] + rest) == "." + Join(rest);
        [[]] + rest
      else
        var fields := [[s[0]] + rest[0]] + rest[1..];
        assert s == [s[0]] + s[1..];
        assert |rest| > 1 ==> Join(rest) == rest[0] + "." + Join(rest[1..]);
        assert |rest| > 1 ==> fields[1..] == rest[1..];
        fields
  }

  /** Joins fields with '.', the inverse of `Split`. */
  function Join(fields: seq<string>): string
    requires |fields| >= 1
    decreases |fields|
  {
    if |fields| == 1 then fields[0] else fields[0] + "." + Join(fields[1..])
  }

  lemma {:induction false} SplitNoDot(a: string)
    requires '.' !in a
    ensures Split(a) == [a]
  {
    if a != [] {
      SplitNoDot(a[1..]);
      assert a == [a[0]] + a[1..];
    }
  }

  lemma {:induction false} SplitDotted(a: string, b: string)
    requires '.' !in a
    ensures Split(a + "." + b) == [a] + Split(b)
  {
    if a == [] {
      assert (a + "." + b)[1..] == b;
    } else {
      assert (a + "." + b)[1..] == a[1..] + "." + b;
      SplitDotted(a[1..], b);
      assert a == [a[0]] + a[1..];
    }
  }

  /** Splitting what `Join` built gives the fields back, when no field holds a dot. */
  lemma {:induction false} SplitJoin(fields: seq<string>)
    requires |fields| >= 1
    requires forall i :: 0 <= i < |fields| ==> '.' !in fields[i]
    ensures Split(Join(fields)) == fields
    decreases |fields|
  {
    if |fields| == 1 {
      SplitNoDot(fields[0]);
    } else {
      SplitJoin(fields[1..]);
      SplitDotted(fields[0], Join(fields[1..]));
      assert fields == [fields[0]] + fields[1..];
    }
  }

  /** A field of one or two digits, the width `%d`, `%m` and `%y` read. */
  function ShortNumeral(f: string): Option<nat> {
    if |f| == 1 && IsDigit(f[0]) then Some(DigitValue(f[0]))
    else if |f| == 2 && IsDigit(f[0]) && IsDigit(f[1]) then Some(10 * DigitValue(f[0]) + DigitValue(f[1]))
    else None
  }

  function DayField(f: string): (r: Option<nat>)
    ensures r.Some? ==> 1 <= r.value <= 31
  {
    match ShortNumeral(f)
    case Some(n) => if 1 <= n <= 31 then Some(n) else None
    case None => None
  }

  function MonthField(f: string): (r: Option<nat>)
    ensures r.Some? ==> 1 <= r.value <= 12
  {
    match ShortNumeral(f)
    case Some(n) => if 1 <= n <= 12 then Some(n) else None
    case None => None
  }

  /** `%y`: exactly two digits, with the century chosen by the 68/69 pivot. */
  function YearField(f: string): (r: Option<int>)
    ensures r.Some? <==> |f| == 2 && IsDigit(f[0]) && IsDigit(f[1])
    ensures r.Some? ==> r.value % 100 == 10 * DigitValue(f[0]) + DigitValue(f[1])
    ensures r.Some? ==> 1969 <= r.value <= 2068
  {
    if |f| == 2 then
      match ShortNumeral(f)
      case Some(n) => Some(if n <= 68 then 2000 + n else 1900 + n)
      case None => None
    else None
  }

  predicate LeapYear(y: int) {
    y % 4 == 0 && (y % 100 != 0 || y % 400 == 0)
  }

  function DaysInMonth(y: int, m: int): int
    requires 1 <= m <= 12
  {
    if m == 2 then (if LeapYear(y) then 29 else 28)
    else if m == 4 || m == 6 || m == 9 || m == 11 then 30
    else 31
  }

  /** The dates a `%d.%m.%y` text can denote. */
  predicate ValidDate(d: Date) {
    && 1969 <= d.year <= 2068
    && 1 <= d.month <= 12
    && 1 <= d.day <= DaysInMonth(d.year, d.month)
  }

  /**
    Reads `dd.mm.yy`, day first. None where pandas raises a parse error, and
    also for pandas' NaT texts ("NaT", "nat", "NAT"), which pandas itself
    turns into NaT without an error.
   */
  function ParseDayFirst(text: string): (r: Option<Date>)
    ensures r.Some? ==> ValidDate(r.value)
    ensures r.Some? ==> |Split(text)| == 3
    ensures r.Some? ==> DayField(Split(text)[0]) == Some(r.value.day)
    ensures r.Some? ==> MonthField(Split(text)[1]) == Some(r.value.month)
    ensures r.Some? ==> YearField(Split(text)[2]) == Some(r.value.year)
    ensures
      && |Split(text)| == 3
      && DayField(Split(text)[0]).Some?
      && MonthField(Split(text)[1]).Some?
      && YearField(Split(text)[2]).Some?
      && DayField(Split(text)[0]).value <= DaysInMonth(YearField(Split(text)[2]).value, MonthField(Split(text)[1]).value)
      ==> r.Some?
  {
    var fields := Split(text);
    if |fields| != 3 then None
    else
      match (DayField(fields[0]), MonthField(fields[1]), YearField(fields[2]))
      case (Some(day), Some(month), Some(year)) =>
        if day <= DaysInMonth(year, month) then Some(Date(year, month, day)) else None
      case _ => None
  }

  /** Two decimal digits, zero padded. */
  function TwoDigits(n: nat): (s: string)
    requires n < 100
    ensures |s| == 2 && IsDigit(s[0]) && IsDigit(s[1])
    ensures 10 * DigitValue(s[0]) + DigitValue(s[1]) == n
  {
    [(('0' as int) + n / 10) as char, (('0' as int) + n % 10) as char]
  }

  /** The canonical `dd.mm.yy` spelling of a date. */
  function FormatDayFirst(d: Date): string
    requires ValidDate(d)
  {
    TwoDigits(d.day) + "." + TwoDigits(d.month) + "." + TwoDigits(d.year % 100)
  }

  /**
    Any spelling of a valid date whose day and month fields read as its day
    and month, followed by the two-digit year, is read back as that date.
   */
  lemma ParseFieldsRoundTrip(d: Date, dd: string, mm: string)
    requires ValidDate(d)
    requires '.' !in dd && '.' !in mm
    requires ShortNumeral(dd) == Some(d.day) && ShortNumeral(mm) == Some(d.month)
    ensures ParseDayFirst(dd + "." + mm + "." + TwoDigits(d.year % 100)) == Some(d)
  {
    var yy := TwoDigits(d.year % 100);
    var fields := [dd, mm, yy];
    assert fields[1..] == [mm, yy] && fields[1..][1..] == [yy];
    assert Join([mm, yy]) == mm + "." + yy;
    assert Join(fields) == dd + "." + (mm + "." + yy);
    assert dd + "." + mm + "." + yy == dd + "." + (mm + "." + yy);
    SplitJoin(fields);
    TwoDigitsRead(d.year % 100);
  }

  /** Every date the format can denote is read back from its `dd.mm.yy` spelling. */
  lemma ParseFormatRoundTrip(d: Date)
    requires ValidDate(d)
    ensures ParseDayFirst(FormatDayFirst(d)) == Some(d)
  {
    TwoDigitsRead(d.day);
    TwoDigitsRead(d.month);
    ParseFieldsRoundTrip(d, TwoDigits(d.day), TwoDigits(d.month));
  }

  /** The shortest spelling of a day or month number: one digit below ten. */
  function ShortSpelling(n: nat): (s: string)
    requires n < 100
    ensures ShortNumeral(s) == Some(n)
  {
    if n < 10 then [(('0' as int) + n) as char]
    else
      TwoDigitsRead(n);
      TwoDigits(n)
  }

  /** Unpadded days and months are read too: "5.3.24" is the fifth of March 2024. */
  lemma ParseUnpaddedRoundTrip(d: Date)
    requires ValidDate(d)
    ensures ParseDayFirst(ShortSpelling(d.day) + "." + ShortSpelling(d.month) + "." + TwoDigits(d.year % 100)) == Some(d)
  {
    ParseFieldsRoundTrip(d, ShortSpelling(d.day), ShortSpelling(d.month));
  }

  lemma TwoDigitsRead(n: nat)
    requires n < 100
    ensures ShortNumeral(TwoDigits(n)) == Some(n)
  {
  }

  /** The first field is the day: "05.03.24" is the fifth of March 2024, not the third of May. */
  lemma DayComesFirst()
    ensures ParseDayFirst("05.03.24") == Some(Date(2024, 3, 5))
  {
    ParseFormatRoundTrip(Date(2024, 3, 5));
    assert FormatDayFirst(Date(2024, 3, 5)) == "05.03.24";
  }

  /** One-digit fields: "5.3.24" is the same day as "05.03.24". */
  lemma UnpaddedDayFirst()
    ensures ParseDayFirst("5.3.24") == Some(Date(2024, 3, 5))
  {
    ParseUnpaddedRoundTrip(Date(2024, 3, 5));
    assert ShortSpelling(5) == "5" && ShortSpelling(3) == "3" && TwoDigits(24) == "24";
    assert "5" + "." + "3" + "." + "24" == "5.3.24";
  }
}

=== FILE: ingest.dfy ===
/**
  What the two jobs share: the eleven-column input row, the per-column
  conversions (done column by column over the whole file before any SQL
  runs), the errors, and the single transaction around a run.
 */
module Ingest {
  import opened Wrappers
  import opened Reservations
  import Normalize
  import DayFirstDates

  /**
    One CSV line after the duplicate `BME.1` column is dropped and the
    columns are renamed. Key and integer columns arrive already typed; the
    cleared flag is None for an empty cell.
   */
  datatype RawRow = RawRow(
    pos: int,
    reservNr: string,
    quantity: string,
    unit: string,
    material: string,
    requirementDate: string,
    cleared: Option<string>,
    kdaPos: int,
    order: string,
    createdOn: string,
    createdAt: string)

  /** Which job's conversion rules apply. */
  datatype Job = BulkLoad | DailyReconcile

  /**
    Library and database behaviour the model does not look inside:
    whether `astype(float)` accepts a cleaned quantity, the daily job's
    `dateutil` parse with `dayfirst=True`, the `%H:%M:%S` time parse, and
    whether the database executes a row's statements without raising.
   */
  datatype Foreign = Foreign(
    isFloat: string -> bool,
    parseDate: string -> Option<Date>,
    parseTime: string -> Option<Time>,
    accepts: Record -> bool)

  /** The columns whose conversion can fail, in the order the jobs convert them. */
  datatype Column = Quantity | RequirementDate | CreatedOn | CreatedAt

  function Rank(c: Column): nat {
    match c
    case Quantity => 0
    case RequirementDate => 1
    case CreatedOn => 2
    case CreatedAt => 3
  }

  /** The error a run raises: a cell that does not convert, or a statement the database rejects. */
  datatype Failure = Unparsable(column: Column, row: nat) | Rejected(row: nat)

  /** What a run leaves behind: the table after commit or rollback, and the error it re-raises. */
  datatype Run = Run(table: Table, error: Option<Failure>)

  function CleanQuantity(job: Job, text: string): string {
    match job
    case BulkLoad => Normalize.BaseQuantity(text)
    case DailyReconcile => Normalize.DailyQuantity(text)
  }

  function ParseDate(job: Job, env: Foreign, text: string): Option<Date> {
    match job
    case BulkLoad => DayFirstDates.ParseDayFirst(text)
    case DailyReconcile => env.parseDate(text)
  }

  /** The cell of column `c` in `raw` converts. */
  predicate CellOk(job: Job, env: Foreign, c: Column, raw: RawRow) {
    match c
    case Quantity => env.isFloat(CleanQuantity(job, raw.quantity))
    case RequirementDate => ParseDate(job, env, raw.requirementDate).Some?
    case CreatedOn => ParseDate(job, env, raw.createdOn).Some?
    case CreatedAt => env.parseTime(raw.createdAt).Some?
  }

  predicate RowOk(job: Job, env: Foreign, raw: RawRow) {
    forall c: Column :: CellOk(job, env, c, raw)
  }

  predicate AllRowsOk(job: Job, env: Foreign, rows: seq<RawRow>) {
    forall i :: 0 <= i < |rows| ==> RowOk(job, env, rows[i])
  }

  /**
    The record a converted row is written as: the key from `reserv_nr` and
    `pos`, the cleaned quantity, the parsed dates and time, the cleared
    flag, and the other columns as read (`bme` is the unit, `auftrag` the
    order, `angel_am` the creation date, `uhrzeit` the creation time).
   */
  function ParseRow(job: Job, env: Foreign, raw: RawRow): (r: Record)
    requires RowOk(job, env, raw)
    ensures r.key == Key(raw.reservNr, raw.pos)
    ensures r.values.quantity == CleanQuantity(job, raw.quantity)
    ensures r.values.unit == raw.unit && r.values.material == raw.material
    ensures r.values.kdaPos == raw.kdaPos && r.values.order == raw.order
    ensures ParseDate(job, env, raw.requirementDate) == Some(r.values.requirementDate)
    ensures ParseDate(job, env, raw.createdOn) == Some(r.values.createdOn)
    ensures env.parseTime(raw.createdAt) == Some(r.values.createdAt)
    ensures r.values.cleared <==> raw.cleared == Some("X")
  {
    assert CellOk(job, env, RequirementDate, raw) && CellOk(job, env, CreatedOn, raw);
    assert CellOk(job, env, CreatedAt, raw);
    Record(
      Key(raw.reservNr, raw.pos),
      Values(
        CleanQuantity(job, raw.quantity),
        raw.unit,
        raw.material,
        ParseDate(job, env, raw.requirementDate).value,
        Normalize.Cleared(raw.cleared),
        raw.kdaPos,
        raw.order,
        ParseDate(job, env, raw.createdOn).value,
        env.parseTime(raw.createdAt).value))
  }

  /** Every cell of column `c` converts. */
  predicate ColumnOk(job: Job, env: Foreign, c: Column, rows: seq<RawRow>) {
    forall i :: 0 <= i < |rows| ==> CellOk(job, env, c, rows[i])
  }

  /** The column converted after `c`, if any. */
  function Next(c: Column): (r: Option<Column>)
    ensures r.Some? <==> Rank(c) < 3
    ensures r.Some? ==> Rank(r.value) == Rank(c) + 1
  {
    match c
    case Quantity => Some(RequirementDate)
    case RequirementDate => Some(CreatedOn)
    case CreatedOn => Some(CreatedAt)
    case CreatedAt => None
  }

  /** A file converts row by row exactly when it converts column by column. */
  lemma RowsByColumns(job: Job, env: Foreign, rows: seq<RawRow>)
    ensures AllRowsOk(job, env, rows) <==> forall c: Column :: ColumnOk(job, env, c, rows)
  {
    if forall c: Column :: ColumnOk(job, env, c, rows) {
      forall i | 0 <= i < |rows| ensures RowOk(job, env, rows[i]) {
        forall c: Column ensures CellOk(job, env, c, rows[i]) {
          assert ColumnOk(job, env, c, rows);
        }
      }
    }
  }

  /** The position of the first `false`. */
  function FirstFalse(bs: seq<bool>): (r: Option<nat>)
    ensures r.None? <==> forall i :: 0 <= i < |bs| ==> bs[i]
    ensures r.Some? ==> r.value < |bs| && !bs[r.value]
    ensures r.Some? ==> forall i :: 0 <= i < r.value ==> bs[i]
  {
    if bs == [] then None
    else if !bs[0] then Some(0)
    else
      match FirstFalse(bs[1..])
      case None => None
      case Some(i) => Some(i + 1)
  }

  /** The conversion outcome of every cell of column `c`, in file order. */
  function Cells(job: Job, env: Foreign, c: Column, rows: seq<RawRow>): (bs: seq<bool>)
    ensures |bs| == |rows|
    ensures forall i :: 0 <= i < |rows| ==> bs[i] == CellOk(job, env, c, rows[i])
  {
    seq(|rows|, i requires 0 <= i < |rows| => CellOk(job, env, c, rows[i]))
  }

  /** The first row whose cell in column `c` does not convert. */
  function FirstBad(job: Job, env: Foreign, c: Column, rows: seq<RawRow>): (r: Option<nat>)
    ensures r.None? <==> ColumnOk(job, env, c, rows)
    ensures r.Some? ==> r.value < |rows| && !CellOk(job, env, c, rows[r.value])
    ensures r.Some? ==> forall i :: 0 <= i < r.value ==> CellOk(job, env, c, rows[i])
  {
    FirstFalse(Cells(job, env, c, rows))
  }

  function ParseAll(job: Job, env: Foreign, rows: seq<RawRow>): (recs: seq<Record>)
    requires AllRowsOk(job, env, rows)
    ensures |recs| == |rows|
  {
    seq(|rows|, i requires 0 <= i < |rows| => ParseRow(job, env, rows[i]))
  }

  /**
    Converts the columns from `c` on, in conversion order; the error is the
    first column holding a bad cell, at its first bad row.
   */
  function ScanFrom(job: Job, env: Foreign, rows: seq<RawRow>, c: Column): (r: Option<Failure>)
    ensures r.None? <==> forall d: Column :: Rank(d) >= Rank(c) ==> ColumnOk(job, env, d, rows)
    ensures r.Some? ==> r.value.Unparsable? && Rank(r.value.column) >= Rank(c)
    ensures r.Some? ==> FirstBad(job, env, r.value.column, rows) == Some(r.value.row)
    ensures r.Some? ==> forall d: Column :: Rank(c) <= Rank(d) < Rank(r.value.column) ==> ColumnOk(job, env, d, rows)
    decreases 3 - Rank(c)
  {
    match FirstBad(job, env, c, rows)
    case Some(i) => Some(Unparsable(c, i))
    case None =>
      match Next(c)
      case None => None
      case Some(n) => ScanFrom(job, env, rows, n)
  }

  /** The conversion error of the whole file, scanning all four columns. */
  function FirstFailure(job: Job, env: Foreign, rows: seq<RawRow>): Option<Failure> {
    ScanFrom(job, env, rows, Quantity)
  }

  /**
    The reported cell is the first bad one of its column, and every column
    converted before it converts in full.
   */
  lemma FirstFailureIsFirst(job: Job, env: Foreign, rows: seq<RawRow>)
    requires !AllRowsOk(job, env, rows)
    ensures FirstFailure(job, env, rows).Some?
    ensures var e := FirstFailure(job, env, rows).value;
      && e.Unparsable? && e.row < |rows|
      && !CellOk(job, env, e.column, rows[e.row])
      && (forall i :: 0 <= i < e.row ==> CellOk(job, env, e.column, rows[i]))
      && (forall d: Column :: Rank(d) < Rank(e.column) ==> ColumnOk(job, env, d, rows))
  {
    RowsByColumns(job, env, rows);
  }

  /** Converts the whole file before any statement runs; fails with the first bad cell. */
  function ParseRows(job: Job, env: Foreign, rows: seq<RawRow>): (r: Result<seq<Record>, Failure>)
    ensures r.Success? <==> AllRowsOk(job, env, rows)
    ensures r.Success? ==> r.value == ParseAll(job, env, rows)
    ensures r.Failure? ==> Some(r.error) == FirstFailure(job, env, rows)
  {
    RowsByColumns(job, env, rows);
    match FirstFailure(job, env, rows)
    case Some(e) => Failure(e)
    case None => Success(ParseAll(job, env, rows))
  }

  /** Every converted row also passes its statements. */
  predicate AllAccepted(env: Foreign, recs: seq<Record>) {
    forall i :: 0 <= i < |recs| ==> env.accepts(recs[i])
  }

  /** `j` is the first converted row whose statements the database rejects. */
  predicate FirstRejectedAt(env: Foreign, recs: seq<Record>, j: nat) {
    j < |recs| && !env.accepts(recs[j]) && forall i :: 0 <= i < j ==> env.accepts(recs[i])
  }

  /** A run of `job` on `rows` commits. */
  predicate Succeeds(job: Job, env: Foreign, rows: seq<RawRow>) {
    AllRowsOk(job, env, rows) && AllAccepted(env, ParseAll(job, env, rows))
  }

  /** The one transaction: commit the new table, or roll back to `before` and re-raise. */
  function Commit(before: Table, outcome: Result<Table, Failure>): (run: Run)
    ensures run.error.None? <==> outcome.Success?
    ensures outcome.Failure? ==> run == Run(before, Some(outcome.error))
    ensures outcome.Success? ==> run.table == outcome.value
  {
    match outcome
    case Success(after) => Run(after, None)
    case Failure(e) => Run(before, Some(e))
  }
}

=== FILE: normalize.dfy ===
/**
  Text normalisation applied to single CSV cells before they are written:
  the two quantity cleanings and the cleared-flag mapping. The two literal
  single-character `replace` calls and Python's argument-less `str.strip()`
  are modelled exactly on `seq<char>`.
 */
module Normalize {
  import opened Wrappers

  /** An ASCII decimal digit, the only digits the model reads. */
  predicate IsDigit(c: char) {
    '0' <= c <= '9'
  }

  /** Python's `str.isspace()` for one character: the characters `strip()` removes. */
  predicate IsSpace(c: char) {
    || ('\t' <= c <= '\r')
    || ('\U{1C}' <= c <= '\U{1F}')
    || c == ' ' || c == '\U{85}' || c == '\U{A0}' || c == '\U{1680}'
    || ('\U{2000}' <= c <= '\U{200A}')
    || c == '\U{2028}' || c == '\U{2029}' || c == '\U{202F}' || c == '\U{205F}' || c == '\U{3000}'
  }

  predicate AllSpace(s: string) {
    forall i :: 0 <= i < |s| ==> IsSpace(s[i])
  }

  /** Neither end of `s` is whitespace. */
  predicate Trimmed(s: string) {
    s == [] || (!IsSpace(s[0]) && !IsSpace(s[|s| - 1]))
  }

  /** Number of occurrences of `c` in `s`. */
  function Count(s: string, c: char): nat {
    if s == [] then 0 else (if s[0] == c then 1 else 0) + Count(s[1..], c)
  }

  lemma {:induction false} CountAppend(a: string, b: string)
    ensures forall c :: Count(a + b, c) == Count(a, c) + Count(b, c)
  {
    if a == [] {
      assert a + b == b;
    } else {
      assert (a + b)[1..] == a[1..] + b;
      CountAppend(a[1..], b);
    }
  }

  lemma {:induction false} CountZero(s: string, c: char)
    ensures Count(s, c) == 0 <==> c !in s
  {
    if s != [] {
      CountZero(s[1..], c);
      assert s == [s[0]] + s[1..];
    }
  }

  lemma {:induction false} CountAllSpace(s: string, c: char)
    requires AllSpace(s) && !IsSpace(c)
    ensures Count(s, c) == 0
  {
    if s != [] {
      CountAllSpace(s[1..], c);
    }
  }

  /** `.replace('.', '')`: drops every dot (the thousands separator of the daily extract). */
  function RemoveDots(s: string): string
  {
    if s == [] then []
    else (if s[0] == '.' then "" else [s[0]]) + RemoveDots(s[1..])
  }

  /** Dot removal drops exactly the dots: every other character keeps its count. */
  lemma {:induction false} RemoveDotsCounts(s: string)
    ensures Count(RemoveDots(s), '.') == 0
    ensures |RemoveDots(s)| == |s| - Count(s, '.')
    ensures forall c :: c != '.' ==> Count(RemoveDots(s), c) == Count(s, c)
  {
    if s != [] {
      RemoveDotsCounts(s[1..]);
      var head := if s[0] == '.' then "" else [s[0]];
      assert RemoveDots(s) == head + RemoveDots(s[1..]);
      CountAppend(head, RemoveDots(s[1..]));
    }
  }

  /** Dot removal works piece by piece: it drops dots and keeps everything else in order. */
  lemma {:induction false} RemoveDotsAppend(a: string, b: string)
    ensures RemoveDots(a + b) == RemoveDots(a) + RemoveDots(b)
  {
    if a == [] {
      assert a + b == b;
    } else {
      assert (a + b)[1..] == a[1..] + b;
      RemoveDotsAppend(a[1..], b);
    }
  }

  /** A leading dot is dropped, any other leading character kept. */
  lemma RemoveDotsCons(c: char, s: string)
    ensures RemoveDots([c] + s) == (if c == '.' then [] else [c]) + RemoveDots(s)
  {
    assert ([c] + s)[1..] == s;
  }

  /** `.replace(',', '.')`: every comma becomes a dot, every other character stays. */
  function CommaToDot(s: string): (r: string)
    ensures |r| == |s|
    ensures forall i :: 0 <= i < |s| ==> r[i] == (if s[i] == ',' then '.' else s[i])
  {
    if s == [] then []
    else [if s[0] == ',' then '.' else s[0]] + CommaToDot(s[1..])
  }

  /** After the replacement no comma is left and each former comma is counted as a dot. */
  lemma {:induction false} CommaToDotCounts(s: string)
    ensures ',' !in CommaToDot(s)
    ensures Count(CommaToDot(s), '.') == Count(s, '.') + Count(s, ',')
    ensures forall c :: c != '.' && c != ',' ==> Count(CommaToDot(s), c) == Count(s, c)
  {
    if s != [] {
      CommaToDotCounts(s[1..]);
      var head := [if s[0] == ',' then '.' else s[0]];
      assert CommaToDot(s) == head + CommaToDot(s[1..]);
      CountAppend(head, CommaToDot(s[1..]));
    }
  }

  /** `lstrip()`: drops the leading whitespace. */
  function TrimStart(s: string): (r: string)
    ensures |r| <= |s|
  {
    if s != [] && IsSpace(s[0]) then TrimStart(s[1..]) else s
  }

  /** `rstrip()`: drops the trailing whitespace. */
  function TrimEnd(s: string): (r: string)
    ensures |r| <= |s|
  {
    if s != [] && IsSpace(s[|s| - 1]) then TrimEnd(s[..|s| - 1]) else s
  }

  /** `lstrip()` cuts a whitespace prefix and stops at the first other character. */
  lemma {:induction false} TrimStartShape(s: string)
    ensures |TrimStart(s)| <= |s|
    ensures TrimStart(s) == s[|s| - |TrimStart(s)|..]
    ensures AllSpace(s[..|s| - |TrimStart(s)|])
    ensures TrimStart(s) == [] || !IsSpace(TrimStart(s)[0])
  {
    if s != [] && IsSpace(s[0]) {
      var t := s[1..];
      TrimStartShape(t);
      var r := TrimStart(t);
      var n := |s| - |r|;
      assert TrimStart(s) == r;
      assert t[|t| - |r|..] == s[n..];
      forall i | 0 <= i < n
        ensures IsSpace(s[..n][i])
      {
        if i > 0 {
          assert s[..n][i] == t[..|t| - |r|][i - 1];
        }
      }
    }
  }

  /** `rstrip()` cuts a whitespace suffix and stops at the last other character. */
  lemma {:induction false} TrimEndShape(s: string)
    ensures |TrimEnd(s)| <= |s|
    ensures TrimEnd(s) == s[..|TrimEnd(s)|]
    ensures AllSpace(s[|TrimEnd(s)|..])
    ensures TrimEnd(s) == [] || !IsSpace(TrimEnd(s)[|TrimEnd(s)| - 1])
  {
    if s != [] && IsSpace(s[|s| - 1]) {
      var t := s[..|s| - 1];
      TrimEndShape(t);
      var r := TrimEnd(t);
      assert TrimEnd(s) == r;
      assert t[..|r|] == s[..|r|];
      forall i | 0 <= i < |s| - |r|
        ensures IsSpace(s[|r|..][i])
      {
        if i < |s| - 1 - |r| {
          assert s[|r|..][i] == t[|r|..][i];
        }
      }
    }
  }

  /** Number of leading whitespace characters `strip()` cuts off. */
  function Lead(s: string): (n: nat)
    ensures n <= |s|
  {
    |s| - |TrimStart(s)|
  }

  /** `strip()`: the result is the middle of `s` with only whitespace cut off either side. */
  function Strip(s: string): (r: string)
    ensures Trimmed(r)
    ensures Lead(s) + |r| <= |s|
    ensures r == s[Lead(s)..Lead(s) + |r|]
    ensures AllSpace(s[..Lead(s)])
    ensures AllSpace(s[Lead(s) + |r|..])
  {
    StripShape(s);
    TrimEnd(TrimStart(s))
  }

  lemma StripShape(s: string)
    ensures Trimmed(TrimEnd(TrimStart(s)))
    ensures Lead(s) + |TrimEnd(TrimStart(s))| <= |s|
    ensures TrimEnd(TrimStart(s)) == s[Lead(s)..Lead(s) + |TrimEnd(TrimStart(s))|]
    ensures AllSpace(s[..Lead(s)])
    ensures AllSpace(s[Lead(s) + |TrimEnd(TrimStart(s))|..])
  {
    TrimStartShape(s);
    StripSlices(s, TrimStart(s), Lead(s));
    StripEnds(TrimStart(s));
  }

  lemma StripSlices(s: string, m: string, lead: nat)
    requires lead <= |s| && m == s[lead..]
    ensures lead + |TrimEnd(m)| <= |s|
    ensures TrimEnd(m) == s[lead..lead + |TrimEnd(m)|]
    ensures AllSpace(s[lead + |TrimEnd(m)|..])
  {
    TrimEndShape(m);
    var r := TrimEnd(m);
    assert m[..|r|] == s[lead..lead + |r|];
    assert m[|r|..] == s[lead + |r|..];
  }

  lemma StripEnds(m: string)
    requires m == [] || !IsSpace(m[0])
    ensures Trimmed(TrimEnd(m))
  {
    TrimEndShape(m);
    var r := TrimEnd(m);
    if r != [] {
      assert r[0] == m[0];
    }
  }

  lemma {:induction false} TrimStartSpaces(a: string, rest: string)
    requires AllSpace(a)
    requires rest == [] || !IsSpace(rest[0])
    ensures TrimStart(a + rest) == rest
  {
    if a == [] {
      assert a + rest == rest;
    } else {
      assert (a + rest)[1..] == a[1..] + rest;
      TrimStartSpaces(a[1..], rest);
    }
  }

  lemma {:induction false} TrimEndSpaces(rest: string, b: string)
    requires AllSpace(b)
    requires rest == [] || !IsSpace(rest[|rest| - 1])
    ensures TrimEnd(rest + b) == rest
  {
    if b == [] {
      assert rest + b == rest;
    } else {
      assert (rest + b)[..|rest + b| - 1] == rest + b[..|b| - 1];
      TrimEndSpaces(rest, b[..|b| - 1]);
    }
  }

  /** `strip()` removes exactly the surrounding whitespace: whitespace around a trimmed text is all it cuts. */
  lemma StripExactly(a: string, m: string, b: string)
    requires AllSpace(a) && AllSpace(b) && Trimmed(m)
    ensures Strip(a + m + b) == m
  {
    if m == [] {
      assert a + m + b == (a + b) + [];
      TrimStartSpaces(a + b, []);
    } else {
      assert a + m + b == a + (m + b);
      TrimStartSpaces(a, m + b);
      TrimEndSpaces(m, b);
    }
  }

  /** `strip()` keeps every non-whitespace character. */
  lemma StripCounts(s: string)
    ensures forall c :: !IsSpace(c) ==> Count(Strip(s), c) == Count(s, c)
  {
    var r := Strip(s);
    var lead := Lead(s);
    assert s == s[..lead] + r + s[lead + |r|..];
    CountAppend(s[..lead] + r, s[lead + |r|..]);
    CountAppend(s[..lead], r);
    forall c | !IsSpace(c) ensures Count(r, c) == Count(s, c) {
      CountAllSpace(s[..lead], c);
      CountAllSpace(s[lead + |r|..], c);
    }
  }

  /** What `strip()` after the comma replacement guarantees, for any text. */
  lemma {:induction false} CleanedCounts(s: string)
    ensures ',' !in Strip(CommaToDot(s))
    ensures Count(Strip(CommaToDot(s)), '.') == Count(s, '.') + Count(s, ',')
    ensures forall c :: c != '.' && c != ',' && !IsSpace(c) ==> Count(Strip(CommaToDot(s)), c) == Count(s, c)
  {
    var dotted := CommaToDot(s);
    CommaToDotCounts(s);
    StripCounts(dotted);
    assert ',' !in Strip(dotted) by {
      CountZero(dotted, ',');
      CountZero(Strip(dotted), ',');
    }
  }

  /**
    Quantity cleaning of the daily job: remove every '.', then turn ',' into
    '.', then strip. Every comma of the input becomes the one dot of the output.
   */
  function DailyQuantity(text: string): (r: string)
    ensures ',' !in r
    ensures Count(r, '.') == Count(text, ',')
    ensures Trimmed(r)
    ensures forall c :: c != '.' && c != ',' && !IsSpace(c) ==> Count(r, c) == Count(text, c)
  {
    var undotted := RemoveDots(text);
    CleanedCounts(undotted);
    RemoveDotsCounts(text);
    Strip(CommaToDot(undotted))
  }

  /**
    Quantity cleaning of the initial load: turn ',' into '.', then strip.
    Dots already present stay, so the dot count grows by the comma count.
   */
  function BaseQuantity(text: string): (r: string)
    ensures ',' !in r
    ensures Count(r, '.') == Count(text, '.') + Count(text, ',')
    ensures Trimmed(r)
    ensures forall c :: c != '.' && c != ',' && !IsSpace(c) ==> Count(r, c) == Count(text, c)
  {
    CleanedCounts(text);
    Strip(CommaToDot(text))
  }

  /** The daily cleaning is the three steps in order: dot removal, comma replacement, strip. */
  lemma DailyQuantitySteps(text: string, undotted: string, dotted: string)
    requires RemoveDots(text) == undotted && CommaToDot(undotted) == dotted
    ensures DailyQuantity(text) == Strip(dotted)
  {
  }

  /** The two cleanings differ only by the dot removal the daily job does first. */
  lemma DailyIsBaseWithoutDots(text: string)
    ensures DailyQuantity(text) == BaseQuantity(RemoveDots(text))
  {
  }

  /** Text without dots passes dot removal unchanged. */
  lemma {:induction false} RemoveDotsNoDot(s: string)
    requires '.' !in s
    ensures RemoveDots(s) == s
  {
    if s != [] {
      assert s[0] != '.';
      RemoveDotsNoDot(s[1..]);
      assert s == [s[0]] + s[1..];
    }
  }

  /** `strip()` leaves a text without surrounding whitespace as it is. */
  lemma StripTrimmed(m: string)
    requires Trimmed(m)
    ensures Strip(m) == m
  {
    assert [] + m == m;
    TrimStartSpaces([], m);
    assert m + [] == m;
    TrimEndSpaces(m, []);
  }

  /** The cleared flag `gel`: true exactly for the marker "X"; blank, missing or anything else is false. */
  function Cleared(cell: Option<string>): (b: bool)
    ensures b <==> cell == Some("X")
  {
    match cell
    case Some(text) => text == "X"
    case None => false
  }

  lemma ClearedExamples()
    ensures Cleared(Some("X")) && !Cleared(None) && !Cleared(Some(""))
    ensures !Cleared(Some("x")) && !Cleared(Some(" X")) && !Cleared(Some("XX"))
  {
  }
}

=== FILE: quantity_formats.dfy ===
/**
  What the two quantity cleanings make of the number formats of the
  extracts, for any digit groups: grouped thousands with a decimal comma,
  a plain decimal comma, and a dot used as the decimal point.
 */
module QuantityFormats {
  import opened Normalize

  /** A non-empty group of decimal digits. */
  predicate Digits(s: string) {
    s != [] && forall i :: 0 <= i < |s| ==> IsDigit(s[i])
  }

  lemma DigitsHaveNoSeparator(s: string)
    requires Digits(s)
    ensures '.' !in s && ',' !in s
  {
  }

  /** Dropping the one dot between two dot-free texts joins them. */
  lemma RemoveDotsOneDot(x: string, y: string)
    requires '.' !in x && '.' !in y
    ensures RemoveDots(x + "." + y) == x + y
  {
    RemoveDotsNoDot(x);
    RemoveDotsNoDot(y);
    RemoveDotsCons('.', []);
    assert RemoveDots(".") == [];
    RemoveDotsAppend(x, ".");
    assert x + [] == x;
    RemoveDotsAppend(x + ".", y);
  }

  /** The one comma between two comma-free texts becomes a dot. */
  lemma CommaToDotOneComma(x: string, y: string)
    requires ',' !in x && ',' !in y
    ensures CommaToDot(x + "," + y) == x + "." + y
  {
    var s := x + "," + y;
    var r := CommaToDot(s);
    forall i | 0 <= i < |s| ensures r[i] == (x + "." + y)[i] {
      if i < |x| {
        assert s[i] == x[i];
      } else if i > |x| {
        assert s[i] == y[i - |x| - 1];
      }
    }
  }

  /** Text that starts and ends with a digit is left alone by `strip()`. */
  lemma StripBetweenDigits(x: string, mid: string, y: string)
    requires Digits(x) && Digits(y)
    ensures Strip(x + mid + y) == x + mid + y
  {
    var s := x + mid + y;
    assert s[0] == x[0] && s[|s| - 1] == y[|y| - 1];
    StripTrimmed(s);
  }

  lemma GroupedUndotted(a: string, b: string, c: string)
    requires Digits(a) && Digits(b) && Digits(c)
    ensures RemoveDots(a + "." + b + "," + c) == (a + b) + "," + c
  {
    DigitsHaveNoSeparator(a);
    DigitsHaveNoSeparator(b);
    DigitsHaveNoSeparator(c);
    var tail := b + "," + c;
    RemoveDotsOneDot(a, tail);
    assert a + "." + b + "," + c == a + "." + tail;
    assert a + tail == (a + b) + "," + c;
  }

  lemma GroupedStripped(a: string, b: string, c: string)
    requires Digits(a) && Digits(b) && Digits(c)
    ensures Strip((a + b) + "." + c) == (a + b) + "." + c
  {
    StripBetweenDigits(a, b + ".", c);
    assert (a + b) + "." + c == a + (b + ".") + c;
  }

  /** Daily format: "1.234,56" reads as "1234.56", the grouping dot dropped. */
  lemma DailyQuantityGrouped(a: string, b: string, c: string)
    requires Digits(a) && Digits(b) && Digits(c)
    ensures DailyQuantity(a + "." + b + "," + c) == a + b + "." + c
  {
    DigitsHaveNoSeparator(a);
    DigitsHaveNoSeparator(b);
    DigitsHaveNoSeparator(c);
    GroupedUndotted(a, b, c);
    CommaToDotOneComma(a + b, c);
    GroupedStripped(a, b, c);
    DailyQuantitySteps(a + "." + b + "," + c, (a + b) + "," + c, (a + b) + "." + c);
  }

  /** Daily format: a plain decimal comma, "12,5", reads as "12.5". */
  lemma DailyQuantityDecimal(a: string, c: string)
    requires Digits(a) && Digits(c)
    ensures DailyQuantity(a + "," + c) == a + "." + c
  {
    DigitsHaveNoSeparator(a);
    DigitsHaveNoSeparator(c);
    RemoveDotsNoDot(a + "," + c);
    CommaToDotOneComma(a, c);
    StripBetweenDigits(a, ".", c);
    DailyQuantitySteps(a + "," + c, a + "," + c, a + "." + c);
  }

  /** The daily rule takes any dot for a grouping dot: "12.5" reads as "125". */
  lemma DailyQuantityDotDecimal(a: string, c: string)
    requires Digits(a) && Digits(c)
    ensures DailyQuantity(a + "." + c) == a + c
  {
    DigitsHaveNoSeparator(a);
    DigitsHaveNoSeparator(c);
    RemoveDotsOneDot(a, c);
    CommaToDotNoComma(a + c);
    JoinedStripped(a, c);
    DailyQuantitySteps(a + "." + c, a + c, a + c);
  }

  lemma JoinedStripped(a: string, c: string)
    requires Digits(a) && Digits(c)
    ensures Strip(a + c) == a + c
  {
    StripBetweenDigits(a, [], c);
    assert a + [] + c == a + c;
  }

  /** Text without commas is left alone by the comma replacement. */
  lemma CommaToDotNoComma(s: string)
    requires ',' !in s
    ensures CommaToDot(s) == s
  {
  }

  /** Base format: a plain decimal comma, "1234,56", reads as "1234.56". */
  lemma BaseQuantityDecimal(a: string, c: string)
    requires Digits(a) && Digits(c)
    ensures BaseQuantity(a + "," + c) == a + "." + c
  {
    DigitsHaveNoSeparator(a);
    DigitsHaveNoSeparator(c);
    CommaToDotOneComma(a, c);
    StripBetweenDigits(a, ".", c);
  }

  /**
    The initial load keeps a grouping dot: "1.234,56" becomes "1.234.56",
    text with two decimal points.
   */
  lemma BaseQuantityGrouped(a: string, b: string, c: string)
    requires Digits(a) && Digits(b) && Digits(c)
    ensures BaseQuantity(a + "." + b + "," + c) == a + "." + b + "." + c
  {
    DigitsHaveNoSeparator(a);
    DigitsHaveNoSeparator(b);
    DigitsHaveNoSeparator(c);
    CommaToDotOneComma(a + "." + b, c);
    StripBetweenDigits(a, "." + b + ".", c);
    assert a + "." + b + "." + c == a + ("." + b + ".") + c;
  }

  /** The sample value of the daily extract. */
  lemma DailyQuantitySample()
    ensures DailyQuantity("1.234,56") == "1234.56"
  {
    DailyQuantityGrouped("1", "234", "56");
    assert "1" + "." + "234" + "," + "56" == "1.234,56";
    assert "1" + "234" + "." + "56" == "1234.56";
  }

  /** The sample value of the base extract. */
  lemma BaseQuantitySample()
    ensures BaseQuantity("1234,56") == "1234.56"
  {
    BaseQuantityDecimal("1234", "56");
    assert "1234" + "," + "56" == "1234,56";
    assert "1234" + "." + "56" == "1234.56";
  }
}

=== FILE: reconciler.dfy ===
/**
  The daily job `process_daily_updates`: convert the whole file, run the
  UPDATE and the conditional INSERT for every row in file order inside one
  transaction, and commit; any error rolls the table back and is re-raised.
 */
module Reconciler {
  import opened Wrappers
  import opened Reservations
  import opened Ingest
  import opened Upsert

  /**
    The statement loop, with the file row number of `recs[0]` at `offset`:
    it stops at the first row the database rejects; otherwise it leaves the
    table the fold of the per-row statements produces.
   */
  function Reconcile(t: Table, recs: seq<Record>, env: Foreign, offset: nat): (r: Result<Table, Failure>)
    ensures r.Success? <==> AllAccepted(env, recs)
    ensures r.Success? ==> r.value == Upserts(t, recs)
    ensures r.Failure? ==>
      r.error.Rejected? && r.error.row >= offset && FirstRejectedAt(env, recs, r.error.row - offset)
    decreases |recs|
  {
    if recs == [] then Success(t)
    else if !env.accepts(recs[0]) then Failure(Rejected(offset))
    else
      var r := Reconcile(ApplyRow(t, recs[0]), recs[1..], env, offset + 1);
      assert AllAccepted(env, recs) <==> AllAccepted(env, recs[1..]) by {
        forall i | 0 < i < |recs| ensures recs[1..][i - 1] == recs[i] { }
      }
      r
  }

  /**
    One run of the daily job on table `t`. It commits exactly when every
    cell converts and every row's statements succeed, and then stores the
    fold of the per-row upserts over the converted file. Otherwise the table
    is rolled back to `t` and the error is the first unconvertible cell (in
    conversion order) or, when all convert, the first rejected row.
   */
  function ProcessDailyUpdates(t: Table, rows: seq<RawRow>, env: Foreign): (run: Run)
    ensures run.error.None? <==> Succeeds(DailyReconcile, env, rows)
    ensures run.error.Some? ==> run.table == t
    ensures run.error.None? ==> run.table == Upserts(t, ParseAll(DailyReconcile, env, rows))
    ensures !AllRowsOk(DailyReconcile, env, rows) ==> run.error == FirstFailure(DailyReconcile, env, rows)
    ensures AllRowsOk(DailyReconcile, env, rows) && run.error.Some? ==>
      run.error.value.Rejected? && FirstRejectedAt(env, ParseAll(DailyReconcile, env, rows), run.error.value.row)
  {
    match ParseRows(DailyReconcile, env, rows)
    case Failure(e) => Commit(t, Failure(e))
    case Success(recs) => Commit(t, Reconcile(t, recs, env, 0))
  }

  /**
    Re-running a file on the table a run left changes nothing: a committed
    run's upserts are idempotent, and a rolled-back run left the old table.
   */
  lemma RerunIsIdempotent(t: Table, rows: seq<RawRow>, env: Foreign)
    ensures ProcessDailyUpdates(ProcessDailyUpdates(t, rows, env).table, rows, env) == ProcessDailyUpdates(t, rows, env)
  {
    if Succeeds(DailyReconcile, env, rows) {
      UpsertsIdempotent(t, ParseAll(DailyReconcile, env, rows));
    }
  }

  /** A table without duplicate keys has none after a daily run. */
  lemma DailyKeepsUnique(t: Table, rows: seq<RawRow>, env: Foreign)
    requires UniqueKeys(t)
    ensures UniqueKeys(ProcessDailyUpdates(t, rows, env).table)
  {
    if ProcessDailyUpdates(t, rows, env).error.None? {
      UpsertsKeepUnique(t, ParseAll(DailyReconcile, env, rows));
    }
  }

  /**
    After a committed run every key of the file is stored, and every row
    with such a key carries the values of the file's last row with it.
   */
  lemma DailyLastWriteWins(t: Table, rows: seq<RawRow>, env: Foreign)
    requires Succeeds(DailyReconcile, env, rows)
    ensures var recs, after := ParseAll(DailyReconcile, env, rows), ProcessDailyUpdates(t, rows, env).table;
      && (forall j :: 0 <= j < |recs| ==> HasKey(after, recs[j].key))
      && (forall i :: 0 <= i < |after| && LastIndex(recs, after[i].key).Some? ==>
            after[i].values == recs[LastIndex(recs, after[i].key).value].values)
  {
    var recs := ParseAll(DailyReconcile, env, rows);
    UpsertsCoverKeys(t, recs);
    UpsertsLastWriteWins(t, recs);
  }

  /**
    A committed run deletes nothing and rewrites no key; rows whose key is
    not in the file are untouched; a key already stored keeps its number of
    rows and a key only in the file is stored once.
   */
  lemma DailyRowsAndCounts(t: Table, rows: seq<RawRow>, env: Foreign, k: Key)
    requires Succeeds(DailyReconcile, env, rows)
    ensures var recs, after := ParseAll(DailyReconcile, env, rows), ProcessDailyUpdates(t, rows, env).table;
      && |after| >= |t|
      && (forall i :: 0 <= i < |t| ==> after[i].key == t[i].key)
      && (forall i :: 0 <= i < |t| && !HasKey(recs, t[i].key) ==> after[i] == t[i])
      && CountKey(after, k) == CountKey(t, k) + (if HasKey(recs, k) && !HasKey(t, k) then 1 else 0)
  {
    var recs := ParseAll(DailyReconcile, env, rows);
    UpsertsKeepRows(t, recs);
    UpsertsCountKey(t, recs, k);
  }
}

=== FILE: reservations.dfy ===
/**
  The reservations table: one record per material-reservation line, matched
  by the business key (reserv_nr, pos). The storage-assigned `id` and the
  `valid_from` / `valid_to` defaults are not written by either job and are
  not part of the record.
 */
module Reservations {

  /** A value of a DATE column. */
  datatype Date = Date(year: int, month: int, day: int)

  /** A value of a TIME column. */
  datatype Time = Time(hour: int, minute: int, second: int)

  /** The business key: columns reserv_nr and pos. */
  datatype Key = Key(reservNr: string, pos: int)

  /** The nine non-key columns, in the order the daily UPDATE sets them. */
  datatype Values = Values(
    quantity: string,      // bedarfsmenge, as the cleaned decimal text handed to the float conversion
    unit: string,          // bme
    material: string,      // material
    requirementDate: Date, // bed_termin
    cleared: bool,         // gel
    kdaPos: int,           // kda_pos
    order: string,         // auftrag
    createdOn: Date,       // angel_am
    createdAt: Time)       // uhrzeit

  datatype Record = Record(key: Key, values: Values)

  /**
    The table in `id` order: the serial id is kept by an UPDATE and grows
    with every INSERT. Nothing in the schema makes the key unique.
   */
  type Table = seq<Record>

  predicate HasKey(t: Table, k: Key) {
    exists i :: 0 <= i < |t| && t[i].key == k
  }

  lemma HasKeyCons(t: Table, k: Key)
    requires t != []
    ensures HasKey(t, k) <==> t[0].key == k || HasKey(t[1..], k)
  {
    if HasKey(t[1..], k) {
      var i :| 0 <= i < |t[1..]| && t[1..][i].key == k;
      assert t[i + 1].key == k;
    }
    if HasKey(t, k) && t[0].key != k {
      var i :| 0 <= i < |t| && t[i].key == k;
      assert t[1..][i - 1].key == k;
    }
  }

  /** A table whose first rows carry the keys of `t` has every key of `t`. */
  lemma HasKeyPrefix(t: Table, r: Table)
    requires |t| <= |r|
    requires forall i :: 0 <= i < |t| ==> r[i].key == t[i].key
    ensures forall k :: HasKey(t, k) ==> HasKey(r, k)
  {
    forall k | HasKey(t, k) ensures HasKey(r, k) {
      var i :| 0 <= i < |t| && t[i].key == k;
      assert r[i].key == k;
    }
  }

  /** A key of `r` missing from its prefix `t` sits in the rows after it. */
  lemma HasKeySuffix(t: Table, r: Table, k: Key)
    requires |t| <= |r|
    requires forall i :: 0 <= i < |t| ==> r[i].key == t[i].key
    requires HasKey(r, k) && !HasKey(t, k)
    ensures HasKey(r[|t|..], k)
  {
    var i :| 0 <= i < |r| && r[i].key == k;
    assert i >= |t|;
    assert r[|t|..][i - |t|].key == k;
  }

  /** Appending a row adds exactly its key to the stored keys. */
  lemma HasKeySnoc(t: Table, rec: Record, k: Key)
    ensures HasKey(t + [rec], k) <==> HasKey(t, k) || rec.key == k
  {
    var r := t + [rec];
    assert r[|t|] == rec;
    if HasKey(t, k) {
      var i :| 0 <= i < |t| && t[i].key == k;
      assert r[i] == t[i];
    }
    if HasKey(r, k) && rec.key != k {
      var i :| 0 <= i < |r| && r[i].key == k;
      assert r[i] == t[i];
    }
  }

  /** At most one row per business key. */
  predicate UniqueKeys(t: Table) {
    forall i, j :: 0 <= i < j < |t| ==> t[i].key != t[j].key
  }

  /** How many rows carry key `k`. */
  function CountKey(t: Table, k: Key): nat {
    if t == [] then 0 else (if t[0].key == k then 1 else 0) + CountKey(t[1..], k)
  }

  lemma {:induction false} CountKeyAppend(a: Table, b: Table, k: Key)
    ensures CountKey(a + b, k) == CountKey(a, k) + CountKey(b, k)
  {
    if a == [] {
      assert a + b == b;
    } else {
      assert (a + b)[1..] == a[1..] + b;
      CountKeyAppend(a[1..], b, k);
    }
  }

  lemma {:induction false} CountKeyPositive(t: Table, k: Key)
    ensures CountKey(t, k) > 0 <==> HasKey(t, k)
  {
    if t != [] {
      CountKeyPositive(t[1..], k);
      if HasKey(t[1..], k) {
        var i :| 0 <= i < |t[1..]| && t[1..][i].key == k;
        assert t[i + 1].key == k;
      }
      if HasKey(t, k) && t[0].key != k {
        var i :| 0 <= i < |t| && t[i].key == k;
        assert t[1..][i - 1].key == k;
      }
    }
  }

  /** In a table with unique keys a present key occurs exactly once. */
  lemma {:induction false} CountKeyUnique(t: Table, k: Key)
    requires UniqueKeys(t) && HasKey(t, k)
    ensures CountKey(t, k) == 1
  {
    if t[0].key == k {
      assert forall i :: 0 <= i < |t[1..]| ==> t[1..][i].key != k by {
        forall i | 0 <= i < |t[1..]| ensures t[1..][i].key != k {
          assert t[1..][i] == t[i + 1];
        }
      }
      CountKeyPositive(t[1..], k);
    } else {
      var i :| 0 <= i < |t| && t[i].key == k;
      assert t[1..][i - 1].key == k;
      CountKeyUnique(t[1..], k);
    }
  }

  /** Rewriting non-key columns never changes how often a key occurs. */
  lemma {:induction false} CountKeySameKeys(a: Table, b: Table, k: Key)
    requires |a| == |b|
    requires forall i :: 0 <= i < |a| ==> a[i].key == b[i].key
    ensures CountKey(a, k) == CountKey(b, k)
  {
    if a != [] {
      CountKeySameKeys(a[1..], b[1..], k);
    }
  }
}

=== FILE: upsert.dfy ===
/**
  The daily reconciler's per-row statements on the reservations table and
  their fold over a file: for each row an UPDATE of the nine non-key
  columns of every row with the same (reserv_nr, pos), then an INSERT that
  only adds the row when no row with that key remains.
 */
module Upsert {
  import opened Wrappers
  import opened Reservations

  /** `UPDATE reservations SET <nine columns> WHERE reserv_nr = .. AND pos = ..` */
  function Update(t: Table, k: Key, v: Values): (r: Table)
    ensures |r| == |t|
    ensures forall i :: 0 <= i < |t| ==> r[i].key == t[i].key
    ensures forall i :: 0 <= i < |t| && t[i].key == k ==> r[i].values == v
    ensures forall i :: 0 <= i < |t| && t[i].key != k ==> r[i] == t[i]
  {
    if t == [] then []
    else [if t[0].key == k then Record(k, v) else t[0]] + Update(t[1..], k, v)
  }

  /** `SELECT 1 FROM reservations WHERE reserv_nr = .. AND pos = ..` finds a row. */
  function Exists(t: Table, k: Key): (b: bool)
    ensures b <==> HasKey(t, k)
  {
    if t == [] then false
    else if t[0].key == k then true
    else
      var b := Exists(t[1..], k);
      assert HasKey(t, k) ==> HasKey(t[1..], k) by {
        if HasKey(t, k) {
          var i :| 0 <= i < |t| && t[i].key == k;
          assert t[1..][i - 1].key == k;
        }
      }
      assert HasKey(t[1..], k) ==> HasKey(t, k) by {
        if HasKey(t[1..], k) {
          var i :| 0 <= i < |t[1..]| && t[1..][i].key == k;
          assert t[i + 1].key == k;
        }
      }
      b
  }

  /** `INSERT ... SELECT <row> WHERE NOT EXISTS (<row's key>)` */
  function InsertIfAbsent(t: Table, rec: Record): (r: Table)
    ensures |r| == |t| + (if HasKey(t, rec.key) then 0 else 1)
    ensures forall i :: 0 <= i < |t| ==> r[i] == t[i]
    ensures |r| > |t| ==> r[|t|] == rec
    ensures HasKey(r, rec.key)
  {
    if Exists(t, rec.key) then t
    else
      assert (t + [rec])[|t|] == rec;
      t + [rec]
  }

  /**
    One row of the daily file: the UPDATE, then the conditional INSERT.
    Afterwards the key is present and every row holding it carries the
    file row's values; only a missing key adds a row; no row is deleted,
    no key rewritten, and rows with other keys are untouched.
   */
  function ApplyRow(t: Table, rec: Record): (r: Table)
    ensures |r| == |t| + (if HasKey(t, rec.key) then 0 else 1)
    ensures forall i :: 0 <= i < |t| ==> r[i].key == t[i].key
    ensures forall i :: 0 <= i < |t| && t[i].key != rec.key ==> r[i] == t[i]
    ensures |r| > |t| ==> r[|t|] == rec
    ensures HasKey(r, rec.key)
    ensures forall i :: 0 <= i < |r| && r[i].key == rec.key ==> r[i].values == rec.values
  {
    var updated := Update(t, rec.key, rec.values);
    assert HasKey(updated, rec.key) <==> HasKey(t, rec.key) by {
      if HasKey(t, rec.key) {
        var i :| 0 <= i < |t| && t[i].key == rec.key;
        assert updated[i].key == rec.key;
      }
    }
    var r := InsertIfAbsent(updated, rec);
    assert HasKey(r, rec.key) by {
      if !HasKey(updated, rec.key) {
        assert r[|updated|] == rec;
      }
    }
    r
  }

  /** One row keeps the table free of duplicate keys. */
  lemma ApplyRowKeepsUnique(t: Table, rec: Record)
    requires UniqueKeys(t)
    ensures UniqueKeys(ApplyRow(t, rec))
  {
    var r := ApplyRow(t, rec);
    if |r| > |t| {
      forall i | 0 <= i < |t| ensures r[i].key != r[|t|].key {
        assert t[i].key == r[i].key;
      }
    }
  }

  /** The whole file, one row after the other, in file order. */
  function Upserts(t: Table, recs: seq<Record>): Table
    decreases |recs|
  {
    if recs == [] then t else Upserts(ApplyRow(t, recs[0]), recs[1..])
  }

  /** Index of the last file row with key `k`: the one whose values win. */
  function LastIndex(recs: seq<Record>, k: Key): (r: Option<nat>)
    ensures r.None? <==> !HasKey(recs, k)
    ensures r.Some? ==> r.value < |recs| && recs[r.value].key == k
    ensures r.Some? ==> forall j :: r.value < j < |recs| ==> recs[j].key != k
  {
    if recs == [] then None
    else
      match LastIndex(recs[1..], k)
      case Some(j) => Some(j + 1)
      case None =>
        assert forall j :: 0 < j < |recs| ==> recs[j].key != k by {
          forall j | 0 < j < |recs| ensures recs[j].key != k {
            assert recs[1..][j - 1] == recs[j];
          }
        }
        if recs[0].key == k then Some(0) else None
  }

  /**
    Old rows keep their positions and keys, and rows whose key is not in
    the file are untouched.
   */
  lemma {:induction false} UpsertsKeepRows(t: Table, recs: seq<Record>)
    ensures |Upserts(t, recs)| >= |t|
    ensures forall i :: 0 <= i < |t| ==> Upserts(t, recs)[i].key == t[i].key
    ensures forall i :: 0 <= i < |t| && !HasKey(recs, t[i].key) ==> Upserts(t, recs)[i] == t[i]
    decreases |recs|
  {
    if recs != [] {
      var t1 := ApplyRow(t, recs[0]);
      var rest := recs[1..];
      UpsertsKeepRows(t1, rest);
      forall i | 0 <= i < |t| && !HasKey(recs, t[i].key)
        ensures Upserts(t, recs)[i] == t[i]
      {
        HasKeyCons(recs, t[i].key);
      }
    }
  }

  /**
    The rows a run appends carry keys of the file that were not in the
    table, each key at most once.
   */
  lemma {:induction false} UpsertsAppendNewKeys(t: Table, recs: seq<Record>)
    ensures |Upserts(t, recs)| >= |t|
    ensures forall i :: |t| <= i < |Upserts(t, recs)| ==> HasKey(recs, Upserts(t, recs)[i].key)
    ensures forall i :: |t| <= i < |Upserts(t, recs)| ==> !HasKey(t, Upserts(t, recs)[i].key)
    ensures forall i, j :: |t| <= i < j < |Upserts(t, recs)| ==> Upserts(t, recs)[i].key != Upserts(t, recs)[j].key
    decreases |recs|
  {
    UpsertsKeepRows(t, recs);
    if recs != [] {
      var t1 := ApplyRow(t, recs[0]);
      var rest := recs[1..];
      var r := Upserts(t1, rest);
      assert r == Upserts(t, recs);
      UpsertsAppendNewKeys(t1, rest);
      UpsertsKeepRows(t1, rest);
      HasKeyPrefix(t, t1);
      forall i | |t| <= i < |r|
        ensures HasKey(recs, r[i].key) && !HasKey(t, r[i].key)
      {
        HasKeyCons(recs, r[i].key);
        if i < |t1| {
          assert r[i].key == recs[0].key;
        }
      }
      forall i, j | |t| <= i < j < |r|
        ensures r[i].key != r[j].key
      {
        if i < |t1| {
          assert r[i].key == t1[i].key;
          assert HasKey(t1, r[i].key);
        }
      }
    }
  }

  /** After a run every key of the file is present. */
  lemma {:induction false} UpsertsCoverKeys(t: Table, recs: seq<Record>)
    ensures forall j :: 0 <= j < |recs| ==> HasKey(Upserts(t, recs), recs[j].key)
    decreases |recs|
  {
    if recs != [] {
      var t1 := ApplyRow(t, recs[0]);
      var rest := recs[1..];
      UpsertsCoverKeys(t1, rest);
      UpsertsKeepRows(t1, rest);
      HasKeyPrefix(t1, Upserts(t1, rest));
      forall j | 0 < j < |recs| ensures HasKey(Upserts(t, recs), recs[j].key) {
        assert recs[j] == rest[j - 1];
      }
    }
  }

  /** The row at `i` carries the values of the last file row with its key. */
  lemma {:induction false} UpsertsRowWins(t: Table, recs: seq<Record>, i: nat)
    requires i < |Upserts(t, recs)|
    requires LastIndex(recs, Upserts(t, recs)[i].key).Some?
    ensures Upserts(t, recs)[i].values == recs[LastIndex(recs, Upserts(t, recs)[i].key).value].values
    decreases |recs|
  {
    var t1 := ApplyRow(t, recs[0]);
    var rest := recs[1..];
    var r := Upserts(t1, rest);
    assert r == Upserts(t, recs);
    var k := r[i].key;
    match LastIndex(rest, k)
    case Some(j) =>
      UpsertsRowWins(t1, rest, i);
      assert LastIndex(recs, k) == Some(j + 1);
      assert recs[j + 1] == rest[j];
    case None =>
      assert LastIndex(recs, k) == Some(0);
      UpsertsRowUntouched(t1, rest, i);
  }

  /** A row whose key is not in the file is the row that was stored before. */
  lemma UpsertsRowUntouched(t: Table, recs: seq<Record>, i: nat)
    requires i < |Upserts(t, recs)|
    requires !HasKey(recs, Upserts(t, recs)[i].key)
    ensures i < |t| && Upserts(t, recs)[i] == t[i]
  {
    UpsertsAppendNewKeys(t, recs);
    UpsertsKeepRows(t, recs);
  }

  /**
    Last write wins: every row whose key occurs in the file carries the
    values of the LAST file row with that key.
   */
  lemma UpsertsLastWriteWins(t: Table, recs: seq<Record>)
    ensures forall i :: 0 <= i < |Upserts(t, recs)| && LastIndex(recs, Upserts(t, recs)[i].key).Some? ==>
      Upserts(t, recs)[i].values == recs[LastIndex(recs, Upserts(t, recs)[i].key).value].values
  {
    forall i | 0 <= i < |Upserts(t, recs)| && LastIndex(recs, Upserts(t, recs)[i].key).Some?
      ensures Upserts(t, recs)[i].values == recs[LastIndex(recs, Upserts(t, recs)[i].key).value].values
    {
      UpsertsRowWins(t, recs, i);
    }
  }

  /** A run never introduces a second row for a key. */
  lemma {:induction false} UpsertsKeepUnique(t: Table, recs: seq<Record>)
    requires UniqueKeys(t)
    ensures UniqueKeys(Upserts(t, recs))
    decreases |recs|
  {
    if recs != [] {
      ApplyRowKeepsUnique(t, recs[0]);
      UpsertsKeepUnique(ApplyRow(t, recs[0]), recs[1..]);
    }
  }

  /** When every key of the file is already stored, a run adds no row. */
  lemma {:induction false} UpsertsOfStoredKeys(t: Table, recs: seq<Record>)
    requires forall j :: 0 <= j < |recs| ==> HasKey(t, recs[j].key)
    ensures |Upserts(t, recs)| == |t|
    decreases |recs|
  {
    if recs != [] {
      var t1 := ApplyRow(t, recs[0]);
      HasKeyPrefix(t, t1);
      forall j | 0 <= j < |recs[1..]| ensures HasKey(t1, recs[1..][j].key) {
        assert recs[1..][j] == recs[j + 1];
      }
      UpsertsOfStoredKeys(t1, recs[1..]);
    }
  }

  /**
    Running the same file again changes nothing: every key is present after
    the first run and already carries its last values.
   */
  lemma UpsertsIdempotent(t: Table, recs: seq<Record>)
    ensures Upserts(Upserts(t, recs), recs) == Upserts(t, recs)
  {
    var r := Upserts(t, recs);
    var u := Upserts(r, recs);
    UpsertsCoverKeys(t, recs);
    UpsertsOfStoredKeys(r, recs);
    UpsertsKeepRows(r, recs);
    forall i | 0 <= i < |u| ensures u[i] == r[i] {
      if LastIndex(recs, u[i].key).Some? {
        UpsertsRowWins(r, recs, i);
        UpsertsRowWins(t, recs, i);
      }
    }
  }

  /** The appended rows have distinct keys. */
  lemma UpsertsAppendedUnique(t: Table, recs: seq<Record>)
    ensures |Upserts(t, recs)| >= |t|
    ensures UniqueKeys(Upserts(t, recs)[|t|..])
  {
    var r := Upserts(t, recs);
    UpsertsAppendNewKeys(t, recs);
    var new_rows := r[|t|..];
    forall i, j | 0 <= i < j < |new_rows| ensures new_rows[i].key != new_rows[j].key {
      assert new_rows[i] == r[i + |t|] && new_rows[j] == r[j + |t|];
    }
  }

  /** A key only in the file ends up among the appended rows. */
  lemma UpsertsAppendsNewKey(t: Table, recs: seq<Record>, k: Key)
    requires HasKey(recs, k) && !HasKey(t, k)
    ensures |Upserts(t, recs)| >= |t|
    ensures HasKey(Upserts(t, recs)[|t|..], k)
  {
    var r := Upserts(t, recs);
    UpsertsKeepRows(t, recs);
    UpsertsCoverKeys(t, recs);
    var j :| 0 <= j < |recs| && recs[j].key == k;
    assert HasKey(r, recs[j].key);
    HasKeySuffix(t, r, k);
  }

  /** A key is appended exactly when it is in the file but was not stored. */
  lemma UpsertsAppendedKeys(t: Table, recs: seq<Record>, k: Key)
    ensures |Upserts(t, recs)| >= |t|
    ensures HasKey(Upserts(t, recs)[|t|..], k) <==> HasKey(recs, k) && !HasKey(t, k)
  {
    var r := Upserts(t, recs);
    UpsertsAppendNewKeys(t, recs);
    var new_rows := r[|t|..];
    if HasKey(new_rows, k) {
      var i :| 0 <= i < |new_rows| && new_rows[i].key == k;
      assert r[i + |t|] == new_rows[i];
    }
    if HasKey(recs, k) && !HasKey(t, k) {
      UpsertsAppendsNewKey(t, recs, k);
    }
  }

  /** The appended rows hold exactly one row for each key only in the file. */
  lemma UpsertsAppendedCount(t: Table, recs: seq<Record>, k: Key)
    ensures |Upserts(t, recs)| >= |t|
    ensures CountKey(Upserts(t, recs)[|t|..], k) == if HasKey(recs, k) && !HasKey(t, k) then 1 else 0
  {
    UpsertsAppendedUnique(t, recs);
    UpsertsAppendedKeys(t, recs, k);
    var new_rows := Upserts(t, recs)[|t|..];
    if HasKey(new_rows, k) {
      CountKeyUnique(new_rows, k);
    } else {
      CountKeyPositive(new_rows, k);
    }
  }

  /**
    How often a key is stored after a run: a key already in the table keeps
    its count (duplicates included), a key only in the file is stored once,
    any other key stays absent.
   */
  lemma UpsertsCountKey(t: Table, recs: seq<Record>, k: Key)
    ensures CountKey(Upserts(t, recs), k) ==
      CountKey(t, k) + (if HasKey(recs, k) && !HasKey(t, k) then 1 else 0)
  {
    var r := Upserts(t, recs);
    UpsertsKeepRows(t, recs);
    UpsertsAppendedCount(t, recs, k);
    assert r == r[..|t|] + r[|t|..];
    CountKeyAppend(r[..|t|], r[|t|..], k);
    CountKeySameKeys(r[..|t|], t, k);
  }

  /** A row whose key is not stored is appended and nothing else changes. */
  lemma ApplyRowFresh(t: Table, rec: Record)
    requires !HasKey(t, rec.key)
    ensures ApplyRow(t, rec) == t + [rec]
  {
  }

  /**
    A file of distinct keys none of which is stored is simply appended, in
    file order: on such a file the reconciler does what the bulk loader does.
   */
  lemma {:induction false} UpsertsOfFreshKeys(t: Table, recs: seq<Record>)
    requires UniqueKeys(recs)
    requires forall j :: 0 <= j < |recs| ==> !HasKey(t, recs[j].key)
    ensures Upserts(t, recs) == t + recs
    decreases |recs|
  {
    if recs != [] {
      var t1 := t + [recs[0]];
      ApplyRowFresh(t, recs[0]);
      forall j | 0 <= j < |recs[1..]| ensures !HasKey(t1, recs[1..][j].key) {
        assert recs[1..][j] == recs[j + 1];
        HasKeySnoc(t, recs[0], recs[j + 1].key);
      }
      UpsertsOfFreshKeys(t1, recs[1..]);
      assert t1 + recs[1..] == t + recs;
    }
  }
}

=== FILE: wrappers.dfy ===
/** Failure-carrying values shared by the two batch jobs. */
module Wrappers {

  /** A value that may be absent, such as an empty CSV cell. */
  datatype Option<+T> = None | Some(value: T)

  /** The outcome of a step that either produces a value or raises an error. */
  datatype Result<+T, +E> = Success(value: T) | Failure(error: E)
}
